=== FILE: README.md ===
# TradeBot broker client and candle ingestion, in Dafny

This project models the deterministic core of the TradeBot XTB client
(`XAPI` in xAPI.py) and of its candle-ingestion loop (`Scrapper` in
scrapper.py), and proves properties of that model.

- **Time arithmetic** (`XapiTime`, `Calendar`). `to_milliseconds` and
  `time_conversion` are modelled. The calendar is the proleptic Gregorian
  calendar of Python's `datetime`. The date text is the zero-padded
  `%m/%d/%Y %H:%M:%S` form.
- **The history window** (`History`). This is the choice of `start`/`end`
  in `get_history`. It uses the broker's server time, passed in as a
  parameter.
- **The session** (`Client`). It covers `connect`, `send`, `login`, `logout`,
  `disconnect` and `establish_connection`. The state is an immutable
  `Session` record. Each broker reply is a record with optional `status`,
  `streamSessionId` and `returnData`. A Python exception becomes
  `PyResult.Raised`.
- **The stream-socket list** (`Streams`). It covers `create_stream_connection`
  and `close_all_stream_connections`.
- **The ingestion run** (`Scrapper`). `get_all_symbols` appends the
  short-sellable symbols to `symbols_short`, which is never reset, folds
  over that whole list, and closes the connection. A run that aborts skips the
  close; once the connection is closed, any later call with a non-empty list
  raises at its first `SELECT`. The SQLite table is a map from ticker to rows.
  `execute_command` is an oracle from the command to its result. The 200 ms
  sleep is a `Throttle` event.

Behaviour of the code that the model follows deliberately:

- `time_conversion` raises for unparsable text (`ValueError` from
  `strptime`) and otherwise only for times on the calendar day 1970-01-01,
  where `str(timedelta)` has no `", "` to split on. Dates before the epoch
  are not rejected: they convert to their epoch milliseconds plus
  7 200 000, so the two hours before the epoch give 0 or more.
- A second `logout` raises. The main socket is closed, so `send` returns
  `False` and `json.loads(False)` raises `TypeError`. It does not return a
  failure value.
- `establish_connection` raises instead of returning `False` in four cases:
  the connect fails; the server is reachable but the login reply never
  arrives (`send` returns `False`); the login reply has no `status`; or an
  accepted login reply has no `streamSessionId`.
- In `get_all_symbols`, `result["returnData"]["rateInfos"]` is read outside
  the `try`. A reply without it ends the whole run. Only a fetch that
  raises is skipped.
- `get_history` tests `end == 0` after conversion. An explicit end that
  converts to 0 is therefore replaced by the server time, as
  `History.ConvertedZeroEndUsesServerTime` shows.

## Model

| member | source | states |
|---|---|---|
| XapiTime.ToMilliseconds | xAPI.py:265-268 | the window length is the total number of minutes in `days`, `hours`, `minutes`, times 60 000 ms |
| XapiTime.ToMillisecondsWholeMinutes | xAPI.py:266-268 | every window length is a whole number of minutes |
| XapiTime.TimedeltaOf | xAPI.py:276-280 | `date - start` normalises to whole days plus 0 to 86 399 seconds, and the parts add back up to the elapsed seconds |
| XapiTime.SumFields | xAPI.py:279-286 | the hours/minutes/seconds that the text split recovers, with 2 added to the hours, sum to days·86 400 000 + seconds·1000 + 7 200 000 |
| XapiTime.TimeConversion | xAPI.py:271-287 | an unparsable date raises `ValueError`; any time on 1970-01-01 raises the unpacking error; every other date gives its epoch milliseconds plus the 2-hour offset |
| XapiTime.TimeConversionStrictlyIncreasing | xAPI.py:272-287 | between two convertible dates, the conversion is smaller exactly when the first date is earlier |
| XapiTime.TimeConversionOfFormat | xAPI.py:273-287 | the formatted text of any valid date off the epoch day converts to that date's epoch milliseconds plus 7 200 000 |
| XapiTime.TimeConversionDayAfterEpoch | xAPI.py:272-287 | `"01/02/1970 00:00:00"` converts to 86 400 000 + 7 200 000 |
| XapiTime.TimeConversionRejectsEpochDay | xAPI.py:276-278 | `"01/01/1970 12:00:00"` raises, because the timedelta text has no day part |
| XapiTime.TimeConversionBeforeEpoch | xAPI.py:275-287 | `"12/31/1969 22:00:00"` (a `-1 day` timedelta) converts to 0 |
| Calendar.Parse | xAPI.py:275 | a parsed date is always a valid `datetime` value |
| Calendar.ParseFormat | xAPI.py:275 | parsing the zero-padded text of any valid date gives that date back |
| Calendar.FormatParse | xAPI.py:275 | a text that parses is exactly the zero-padded text of its date |
| Calendar.DaysBeforeNextYear | xAPI.py:276 | day numbering advances by 366 in leap years and 365 in others, following the Gregorian 4/100/400 rule |
| Calendar.SecondsSinceEpochOrder | xAPI.py:276 | `date - start` is smaller for one date than another exactly when that date is chronologically earlier |
| Calendar.DaysSinceEpochZero | xAPI.py:276-278 | the timedelta has 0 days exactly when the date falls on 1970-01-01 |
| Calendar.SecondsSinceEpochSplit | xAPI.py:276-280 | `timedelta.days` is the day difference and the remaining seconds are the time of day |
| Client.Connect | xAPI.py:290-296 | the main socket is open exactly when the server was reachable, and `False` (here `Unreachable`) otherwise; nothing else changes |
| Client.Disconnect | xAPI.py:299-305 | returns `True` and leaves the main socket closed exactly when there was a socket to close; on `None`/`False` the error is caught, `False` returned and nothing changes |
| Client.Send | xAPI.py:308-315 | a reply comes back exactly when the main socket is open and the transport delivered one; every other case is the swallowed error |
| Client.Receive | xAPI.py:308-315 | a reply is decoded exactly when the main socket is open and the transport delivered one; otherwise decoding the `False` from `send` raises |
| Client.DisconnectIdempotent | xAPI.py:299-305 | disconnecting twice equals disconnecting once, and only the main socket changes |
| Client.Login | xAPI.py:40-57 | returns `None` and stores the stream session id exactly when the status is true and an id is present; returns the reply, with the session unchanged, exactly when the status is false |
| Client.Logout | xAPI.py:60-74 | once a reply with a status is decoded, the socket is closed whatever the status says; the result is `True` exactly when the status is true; the stream session id is kept |
| Client.LogoutTwiceRaises | xAPI.py:60-69 | a logout after a completed logout raises and changes nothing |
| Client.FreshSessionLifecycle | xAPI.py:13-74 | a new client cannot log in before connecting; after a successful `establish_connection` it holds its credentials, the stream session id and no streams; the first `logout` returns the status and closes the main socket; a second raises |
| Client.EstablishConnection | xAPI.py:28-37 | connect then login; `True` exactly for an accepted login, `False` exactly for a refused one; an unreachable server raises |
| Client.EstablishConnectionLostReply | xAPI.py:28-32 | a reachable server whose login reply never arrives makes `establish_connection` raise, with the main socket open |
| Client.EstablishConnectionFollowsLogin | xAPI.py:28-37 | success, raising, and the resulting session all coincide with those of `login` on the freshly connected session |
| Protocol.HistoryCommand | xAPI.py:224-230 | the `getTradesHistory` command carries exactly the given `start` and `end` |
| Protocol.ChartLastRequest | scrapper.py:106-117 | the `getChartLastRequest` command's `info` carries exactly the given period, start and symbol |
| History.HistoryWindow | xAPI.py:211-222 | a relative window ends at the converted explicit end, or at the server time when that is 0, and spans exactly `to_milliseconds`; without one, the converted dates (0 when omitted) are sent; the start's conversion error comes out first, then the end's, then the server time's when it is asked for |
| History.RelativeWindowOverridesStart | xAPI.py:214-222 | with a relative window, any two convertible explicit starts give the same window |
| History.ServerTimeOnlyWhenNeeded | xAPI.py:219-221 | the server time affects the result only for a relative window without a non-zero end |
| History.ConvertedZeroEndUsesServerTime | xAPI.py:216-221 | an explicit end converting to 0 is replaced by the server time |
| History.GetHistory | xAPI.py:211-235 | returns the reply's `returnData` for the command built from the chosen window exactly when the window, the transport and the reply's `returnData` are all present; otherwise it raises, in that order of precedence: the window's own error, then the error of a socket that is not open or of a lost reply, then the missing `returnData` key |
| Streams.CreateStreamConnection | xAPI.py:318-322 | appends exactly one socket, keeps every earlier entry, and returns the appended socket; a failed connect raises and leaves the list alone |
| Streams.CloseAllStreamConnections | xAPI.py:324-329 | attempts `close` on every listed socket in order; each closes unless its close raises, and no error escapes; the list keeps its length and order |
| Scrapper.ShortSellingSymbols | scrapper.py:61-64 | a symbol is kept exactly when some discovered instrument with that symbol allows short selling |
| Scrapper.ShortSellingSymbolsAppend | scrapper.py:62-64 | the filter preserves discovery order |
| Scrapper.MaxCtm | scrapper.py:71-73 | `MAX(ctm)` is `NULL` exactly for no rows; otherwise it bounds every row's `ctm` and is attained |
| Scrapper.ResumePoint | scrapper.py:71-85 | the fetch starts at `default_time` for a ticker with no rows, and otherwise at the latest stored `ctm` + 60 000 |
| Scrapper.NormalizeAll | scrapper.py:90-99 | one row per candle, in order, each the candle with `ctmString`, `high` and `low` removed: the row's ticker is the symbol and its `ctm`, `open`, `close` and `vol` columns are the candle's fields of those names |
| Scrapper.NormalizeKeepsExactlyFourFields | scrapper.py:90-99 | a row records the ticker, and two candles give the same row exactly when `ctm`, `open`, `close` and `vol` agree |
| Scrapper.FetchRequest | scrapper.py:82-85 | each symbol's fetch is a one-minute `getChartLastRequest` for that symbol starting at its resume point |
| Scrapper.ProcessSymbol | scrapper.py:67-101 | throttle, then request from the resume point; a raising fetch is skipped with the store unchanged; a full reply appends its normalised candles for that ticker only, then commits; a reply without `rateInfos` ends the run with the store unchanged |
| Scrapper.AppendedRowsFollowStoredOnes | scrapper.py:82-85 | when the broker honours `start`, every appended row is later than every stored row, so the boundary candle is never stored twice |
| Scrapper.ProcessSymbolKeepsStoreValid | scrapper.py:70-101 | one step keeps every ticker's history with strictly increasing, correctly tagged rows |
| Scrapper.Ingest | scrapper.py:67-101 | a completed run leaves exactly three events per symbol; an aborted one leaves at least two and fewer than three per symbol |
| Scrapper.IngestOnlyAppends | scrapper.py:67-101 | a run only appends: unvisited tickers keep their rows and no ticker loses any |
| Scrapper.IngestThrottlesEveryRequest | scrapper.py:74-85 | every fetch is immediately preceded by the throttle |
| Scrapper.IngestEventsPerSymbol | scrapper.py:67-101 | in a completed run the k-th symbol's events are the 200 ms pause, a chart request for that symbol, then its skip or the commit of its rows |
| Scrapper.IngestVisitsEverySymbol | scrapper.py:67-88 | when replies are well formed, the run completes and requests one-minute candles for each symbol, in list order |
| Scrapper.IngestStopsOnlyOnMalformedReply | scrapper.py:86-90 | a run that stops early stops right after a request whose reply lacks `returnData.rateInfos` |
| Scrapper.FailingSymbolIsSkipped | scrapper.py:74-88 | a symbol whose fetch always raises leaves the store and the completion flag as if it were absent from the list |
| Scrapper.IngestKeepsStoreValid | scrapper.py:56-101 | when the broker honours `start` and sorts candles, no run ever stores a duplicate or out-of-order `ctm` for a ticker |
| Scrapper.GetAllSymbols | scrapper.py:56-103 | `symbols_short` is never reset: its earlier entries stay in front and the appended suffix is exactly the short-sellable discovered symbols in discovery order. A closed connection with a non-empty list raises before any fetch and leaves the table unchanged. Otherwise the run ingests the whole list from the current store, and the connection stays open exactly when that run aborted |
| Scrapper.GetAllSymbolsAfterCompletedRunRaises | scrapper.py:64-103 | after a completed run with a non-empty list, the next call appends its symbols and then raises on the closed connection |
| Scrapper.GetAllSymbolsFetchesShortSellable | scrapper.py:56-103 | when replies are well formed, on a fresh scrapper the run requests exactly the short-sellable symbols, in discovery order, and leaves every other ticker's rows untouched; the run completes and closes the connection |

## Left out

- WebSocket transport: `websocket.create_connection`, `send`/`recv` and `close`. A reply is a parameter (`SendResult`); connect success and per-socket close failure are parameters too.
- The passthrough commands `get_server_time`, `get_balance`, `get_margin`, `get_symbol` and `ping`. They send a fixed command and hand back the decoded reply (`ping`) or one field of it (the others). The server time enters `HistoryWindow` as a parameter, including the exception it may raise.
- `subscribe_command`, `unsubscribe_command`, the read loops `get_keep_alive_s`/`get_balance_s`/`get_candles_s`, and `ping_interval`. They are infinite, asyncio-driven loops over the network.
- `get_time`, `exec_start`, the `print` logging and the `asyncio.sleep` duration: the wall clock, console output and timing. The sleep survives only as a `Throttle` event.
- `Scrapper.__init__`: the credentials file, `CREATE TABLE`, and `default_time`. `date_to_milliseconds` is not part of this model (no such method exists on `XAPI`), so the default start is a parameter.
- `main_loop`, the `main()` entry point and bot.py: wiring and process lifetime.
- `get_all_symbols` of `XAPI` and `execute_command`: `Scrapper` calls them, but neither is defined in xAPI.py. The discovered instruments and the fetch oracle are parameters.
- Calendar.Parse: only the zero-padded form is modelled. `strptime` also accepts fields without leading zeros; those texts parse to `None` here.
- Client.Login: `status` is a JSON boolean or absent. Other JSON values (for which `is False` and `str(status) == "True"` would both be false) are not modelled. Nor are replies that are not JSON.
- Scrapper.ProcessSymbol: every candle is assumed to carry all its keys, so the `del candle[key]` KeyError is not modelled. A `shortSelling` entry is likewise assumed present in every instrument.
- Scrapper.FetchRequest: the fetch oracle depends only on the command sent, not on the time of the call.
- The symbol is pasted into the `INSERT` text with an f-string. The SQL quoting issue this raises is not modelled; rows are stored under the symbol as given.
- Prices and volumes are `real`; floating-point rounding is not modelled.
- History.GetHistory: the server time is a parameter independent of the session. With the main socket not open, `get_server_time` could only raise `TypeError`, but the model accepts any server time there. No proved property depends on the link.

=== FILE: calendar.dfy ===
/** The proleptic Gregorian calendar that Python's `datetime` uses, and the
    date format `%m/%d/%Y %H:%M:%S` the client converts from.

    A `DateTime` is the naive (time-zone-free) value `strptime` builds; the
    subtraction `date - datetime(1970, 1, 1)` of the client is
    `SecondsSinceEpoch`.
 */
module Calendar {
  import opened Wrappers

  datatype DateTime = DateTime(year: int, month: int, day: int, hour: int, minute: int, second: int)

  predicate IsLeapYear(y: int) {
    y % 4 == 0 && (y % 100 != 0 || y % 400 == 0)
  }

  function YearLength(y: int): int {
    if IsLeapYear(y) then 366 else 365
  }

  function DaysInMonth(y: int, m: int): int
    requires 1 <= m <= 12
  {
    if m == 2 then (if IsLeapYear(y) then 29 else 28)
    else if m == 4 || m == 6 || m == 9 || m == 11 then 30
    else 31
  }

  /** Days of year `y` that lie before the first of month `m`; month 13 stands for the whole year. */
  function DaysBeforeMonth(y: int, m: int): int
    requires 1 <= m <= 13
  {
    var common :=
      if m == 1 then 0 else if m == 2 then 31 else if m == 3 then 59
      else if m == 4 then 90 else if m == 5 then 120 else if m == 6 then 151
      else if m == 7 then 181 else if m == 8 then 212 else if m == 9 then 243
      else if m == 10 then 273 else if m == 11 then 304 else if m == 12 then 334
      else 365;
    common + (if m > 2 && IsLeapYear(y) then 1 else 0)
  }

  /** Days from 0001-01-01 to the first of January of year `y`: 365 per year plus the leap days before it. */
  function DaysBeforeYear(y: int): int
    requires 1 <= y
  {
    var p := y - 1;
    365 * p + p / 4 - p / 100 + p / 400
  }

  /** Going from `y - 1` to `y` adds one multiple of `k` exactly when `k` divides `y` (for the leap-year divisors). */
  lemma QuotientStep(y: int, k: int)
    requires 1 <= y && (k == 4 || k == 100 || k == 400)
    ensures y / k == (y - 1) / k + (if y % k == 0 then 1 else 0)
  {
    if k == 4 {
      assert y / 4 == (y - 1) / 4 + (if y % 4 == 0 then 1 else 0);
    } else if k == 100 {
      assert y / 100 == (y - 1) / 100 + (if y % 100 == 0 then 1 else 0);
    } else {
      assert y / 400 == (y - 1) / 400 + (if y % 400 == 0 then 1 else 0);
    }
  }

  /** Every multiple of 100 is one of 4 ... */
  lemma CenturyIsLeapMultiple(y: int)
    requires y % 100 == 0
    ensures y % 4 == 0
  {
    var q := y / 100;
    assert y == 4 * (25 * q);
  }

  /** ... and every multiple of 400 one of 100. */
  lemma QuadCenturyIsCentury(y: int)
    requires y % 400 == 0
    ensures y % 100 == 0
  {
    var q := y / 400;
    assert y == 100 * (4 * q);
  }

  /** Each year adds its own length. */
  lemma DaysBeforeNextYear(y: int)
    requires 1 <= y
    ensures DaysBeforeYear(y + 1) == DaysBeforeYear(y) + YearLength(y)
  {
    QuotientStep(y, 4);
    QuotientStep(y, 100);
    QuotientStep(y, 400);
    if y % 400 == 0 {
      QuadCenturyIsCentury(y);
    }
    if y % 100 == 0 {
      CenturyIsLeapMultiple(y);
    }
    var p := y - 1;
    var a := if y % 4 == 0 then 1 else 0;
    var b := if y % 100 == 0 then 1 else 0;
    var c := if y % 400 == 0 then 1 else 0;
    assert DaysBeforeYear(y + 1) - DaysBeforeYear(y) == 365 + a - b + c;
    assert YearLength(y) == 365 + a - b + c;
  }

  /** The values `datetime` accepts: years 1 to 9999, a day that exists in its month, a time of day. */
  predicate Valid(d: DateTime) {
    && 1 <= d.year <= 9999
    && 1 <= d.month <= 12
    && 1 <= d.day <= DaysInMonth(d.year, d.month)
    && 0 <= d.hour < 24
    && 0 <= d.minute < 60
    && 0 <= d.second < 60
  }

  const Epoch := DateTime(1970, 1, 1, 0, 0, 0)

  /** Days elapsed since 0001-01-01 (Python's `toordinal() - 1`). */
  function DayNumber(d: DateTime): int
    requires Valid(d)
  {
    DaysBeforeYear(d.year) + DaysBeforeMonth(d.year, d.month) + d.day - 1
  }

  /** Whole days from 1970-01-01 to the calendar day of `d` (negative before it). */
  function DaysSinceEpoch(d: DateTime): int
    requires Valid(d)
  {
    DayNumber(d) - DayNumber(Epoch)
  }

  function SecondOfDay(d: DateTime): int {
    d.hour * 3600 + d.minute * 60 + d.second
  }

  /** `(d - datetime(1970, 1, 1)).total_seconds()`. */
  function SecondsSinceEpoch(d: DateTime): int
    requires Valid(d)
  {
    DaysSinceEpoch(d) * 86400 + SecondOfDay(d)
  }

  predicate IsEpochDay(d: DateTime) {
    d.year == 1970 && d.month == 1 && d.day == 1
  }

  /** Chronological order of calendar days. */
  predicate DayBefore(a: DateTime, b: DateTime) {
    || a.year < b.year
    || (a.year == b.year && a.month < b.month)
    || (a.year == b.year && a.month == b.month && a.day < b.day)
  }

  predicate SameDay(a: DateTime, b: DateTime) {
    a.year == b.year && a.month == b.month && a.day == b.day
  }

  /** Chronological order of date-times: by day, then by time of day. */
  predicate Before(a: DateTime, b: DateTime) {
    || DayBefore(a, b)
    || (SameDay(a, b) && a.hour < b.hour)
    || (SameDay(a, b) && a.hour == b.hour && a.minute < b.minute)
    || (SameDay(a, b) && a.hour == b.hour && a.minute == b.minute && a.second < b.second)
  }

  // ----- day arithmetic -----

  lemma DaysBeforeMonthBounds(y: int, m: int, n: int)
    requires 1 <= m <= 12 && m < n <= 13
    ensures DaysBeforeMonth(y, m) + DaysInMonth(y, m) <= DaysBeforeMonth(y, n)
    ensures DaysBeforeMonth(y, n) <= YearLength(y)
  {
  }

  lemma {:induction false} DaysBeforeYearGrows(y: int, z: int)
    requires 1 <= y < z
    ensures DaysBeforeYear(y) + YearLength(y) <= DaysBeforeYear(z)
    decreases z
  {
    DaysBeforeNextYear(z - 1);
    if z > y + 1 {
      DaysBeforeYearGrows(y, z - 1);
    }
  }

  /** A later calendar day has a larger day number. */
  lemma DayNumberIncreasing(a: DateTime, b: DateTime)
    requires Valid(a) && Valid(b) && DayBefore(a, b)
    ensures DayNumber(a) < DayNumber(b)
  {
    if a.year < b.year {
      DaysBeforeMonthBounds(a.year, a.month, 13);
      DaysBeforeYearGrows(a.year, b.year);
    } else if a.month < b.month {
      DaysBeforeMonthBounds(a.year, a.month, b.month);
    }
  }

  /** `SecondsSinceEpoch` is strictly increasing in chronological order. */
  lemma SecondsSinceEpochIncreasing(a: DateTime, b: DateTime)
    requires Valid(a) && Valid(b) && Before(a, b)
    ensures SecondsSinceEpoch(a) < SecondsSinceEpoch(b)
  {
    if DayBefore(a, b) {
      DayNumberIncreasing(a, b);
      assert DaysSinceEpoch(a) + 1 <= DaysSinceEpoch(b);
      assert SecondOfDay(a) < 86400;
    }
  }

  lemma BeforeTotal(a: DateTime, b: DateTime)
    ensures Before(a, b) || a == b || Before(b, a)
  {
  }

  /** ... and it orders date-times exactly as the calendar does. */
  lemma SecondsSinceEpochOrder(a: DateTime, b: DateTime)
    requires Valid(a) && Valid(b)
    ensures SecondsSinceEpoch(a) < SecondsSinceEpoch(b) <==> Before(a, b)
  {
    BeforeTotal(a, b);
    if Before(a, b) {
      SecondsSinceEpochIncreasing(a, b);
    } else if Before(b, a) {
      SecondsSinceEpochIncreasing(b, a);
    }
  }

  /** The only calendar day zero days after the epoch is 1970-01-01 itself. */
  lemma DaysSinceEpochZero(d: DateTime)
    requires Valid(d)
    ensures DaysSinceEpoch(d) == 0 <==> IsEpochDay(d)
  {
    assert Valid(Epoch);
    if DayBefore(d, Epoch) {
      DayNumberIncreasing(d, Epoch);
    } else if DayBefore(Epoch, d) {
      DayNumberIncreasing(Epoch, d);
    }
  }

  /** `date - start` split the way `timedelta` normalises it: whole days, then seconds of that day. */
  lemma SecondsSinceEpochSplit(d: DateTime)
    requires Valid(d)
    ensures SecondsSinceEpoch(d) / 86400 == DaysSinceEpoch(d)
    ensures SecondsSinceEpoch(d) % 86400 == SecondOfDay(d)
  {
    assert 0 <= SecondOfDay(d) < 86400;
  }

  // ----- the zero-padded text form `MM/DD/YYYY HH:MM:SS` -----

  predicate IsDigit(c: char) {
    '0' <= c <= '9'
  }

  predicate AllDigits(s: string) {
    forall i :: 0 <= i < |s| ==> IsDigit(s[i])
  }

  function DigitValue(c: char): int
    requires IsDigit(c)
  {
    c as int - '0' as int
  }

  function DigitChar(n: int): char
    requires 0 <= n < 10
  {
    ('0' as int + n) as char
  }

  function Value2(s: string): int
    requires |s| == 2 && AllDigits(s)
  {
    10 * DigitValue(s[0]) + DigitValue(s[1])
  }

  function Value4(s: string): int
    requires |s| == 4 && AllDigits(s)
  {
    100 * Value2(s[..2]) + Value2(s[2..])
  }

  function Pad2(n: int): (s: string)
    requires 0 <= n < 100
    ensures |s| == 2 && AllDigits(s)
  {
    [DigitChar(n / 10), DigitChar(n % 10)]
  }

  function Pad4(n: int): (s: string)
    requires 0 <= n < 10000
    ensures |s| == 4 && AllDigits(s)
  {
    Pad2(n / 100) + Pad2(n % 100)
  }

  /** The separators of `%m/%d/%Y %H:%M:%S` sit at these places of a zero-padded date. */
  predicate HasLayout(s: string) {
    && |s| == 19
    && s[2] == '/' && s[5] == '/' && s[10] == ' ' && s[13] == ':' && s[16] == ':'
    && AllDigits(s[0..2]) && AllDigits(s[3..5]) && AllDigits(s[6..10])
    && AllDigits(s[11..13]) && AllDigits(s[14..16]) && AllDigits(s[17..19])
  }

  /** `datetime.strptime(s, '%m/%d/%Y %H:%M:%S')` on zero-padded input: `None` where it raises `ValueError`. */
  function Parse(s: string): (r: Option<DateTime>)
    ensures r.Some? ==> Valid(r.value)
  {
    if !HasLayout(s) then None
    else
      var d := DateTime(Value4(s[6..10]), Value2(s[0..2]), Value2(s[3..5]),
                        Value2(s[11..13]), Value2(s[14..16]), Value2(s[17..19]));
      if Valid(d) then Some(d) else None
  }

  /** The zero-padded text form `MM/DD/YYYY HH:MM:SS` of a date, the form `Parse` reads. */
  function Format(d: DateTime): (s: string)
    requires Valid(d)
    ensures HasLayout(s)
  {
    Pad2(d.month) + "/" + Pad2(d.day) + "/" + Pad4(d.year) + " "
      + Pad2(d.hour) + ":" + Pad2(d.minute) + ":" + Pad2(d.second)
  }

  lemma Pad2Value(n: int)
    requires 0 <= n < 100
    ensures Value2(Pad2(n)) == n
  {
  }

  lemma Pad4Value(n: int)
    requires 0 <= n < 10000
    ensures Value4(Pad4(n)) == n
  {
    var s := Pad4(n);
    assert s[..2] == Pad2(n / 100);
    assert s[2..] == Pad2(n % 100);
    Pad2Value(n / 100);
    Pad2Value(n % 100);
  }

  lemma ValuePad2(s: string)
    requires |s| == 2 && AllDigits(s)
    ensures Pad2(Value2(s)) == s
  {
    var a, b := DigitValue(s[0]), DigitValue(s[1]);
    assert (10 * a + b) / 10 == a;
    assert (10 * a + b) % 10 == b;
  }

  lemma ValuePad4(s: string)
    requires |s| == 4 && AllDigits(s)
    ensures Pad4(Value4(s)) == s
  {
    var hi, lo := Value2(s[..2]), Value2(s[2..]);
    assert (100 * hi + lo) / 100 == hi;
    assert (100 * hi + lo) % 100 == lo;
    ValuePad2(s[..2]);
    ValuePad2(s[2..]);
    assert s == s[..2] + s[2..];
  }

  /** Formatting a valid date-time and parsing it back gives the same value. */
  lemma ParseFormat(d: DateTime)
    requires Valid(d)
    ensures Parse(Format(d)) == Some(d)
  {
    var s := Format(d);
    assert s[0..2] == Pad2(d.month);
    assert s[3..5] == Pad2(d.day);
    assert s[6..10] == Pad4(d.year);
    assert s[11..13] == Pad2(d.hour);
    assert s[14..16] == Pad2(d.minute);
    assert s[17..19] == Pad2(d.second);
    Pad2Value(d.month);
    Pad2Value(d.day);
    Pad4Value(d.year);
    Pad2Value(d.hour);
    Pad2Value(d.minute);
    Pad2Value(d.second);
  }

  /** Every string `Parse` accepts is the formatted form of what it parses to. */
  lemma FormatParse(s: string)
    requires Parse(s).Some?
    ensures Format(Parse(s).value) == s
  {
    var d := Parse(s).value;
    ValuePad2(s[0..2]);
    ValuePad2(s[3..5]);
    ValuePad4(s[6..10]);
    ValuePad2(s[11..13]);
    ValuePad2(s[14..16]);
    ValuePad2(s[17..19]);
    assert s == s[0..2] + "/" + s[3..5] + "/" + s[6..10] + " "
      + s[11..13] + ":" + s[14..16] + ":" + s[17..19];
  }
}

=== FILE: client.dfy ===
/** The session half of the `XAPI` class (xAPI.py): the main socket,
    `send`, `login`, `logout`, `establish_connection`, and the list of
    stream sockets.

    Socket traffic is not modelled: where the client writes a command and
    reads the reply, the model takes the reply (`SendResult`) as a
    parameter. `send` itself catches every socket error and returns `False`;
    the callers then feed that to `json.loads`, which raises `TypeError`.
 */
module Client {
  import opened Wrappers
  import opened Protocol

  /** The `_ws_main` attribute: `None` before `connect`, `False` after a
      failed `connect`, or a socket that is open or has been closed. */
  datatype MainSocket = Unset | Unreachable | Open | Closed

  /** One entry of `stream_socket_list`. */
  datatype StreamSocket = StreamSocket(id: nat, open: bool)

  /** The mutable state of one `XAPI` instance. */
  datatype Session = Session(
    userId: string,
    password: string,
    main: MainSocket,
    streamSessionId: Option<string>,
    streams: seq<StreamSocket>)

  /** The state after a call, and what the call returned or raised. */
  datatype Step<+T> = Step(session: Session, outcome: PyResult<T>)

  /** `XAPI(id, pswd)`. */
  function NewSession(userId: string, password: string): Session {
    Session(userId, password, Unset, None, [])
  }

  /** `connect()`: `websocket.create_connection` either opens the main socket or fails and leaves `False`. */
  function Connect(s: Session, reachable: bool): (r: Session)
    ensures r.main.Open? <==> reachable
    ensures !reachable ==> r.main == Unreachable
    ensures r == s.(main := r.main)
  {
    s.(main := if reachable then Open else Unreachable)
  }

  /** `disconnect()`: closes the main socket; on `None`/`False` the `.close()` attribute error is caught and `False` returned. */
  function Disconnect(s: Session): (r: (Session, bool))
    ensures r.1 <==> s.main.Open? || s.main.Closed?
    ensures r.1 ==> r.0 == s.(main := Closed)
    ensures !r.1 ==> r.0 == s
  {
    if s.main.Open? || s.main.Closed? then (s.(main := Closed), true) else (s, false)
  }

  lemma DisconnectIdempotent(s: Session)
    ensures Disconnect(Disconnect(s).0) == Disconnect(s)
    ensures Disconnect(s).0 == s.(main := Disconnect(s).0.main)
  {
  }

  /** `send(msg)`: a reply arrives only over an open main socket; otherwise the error is swallowed. */
  function Send(s: Session, reply: SendResult): (r: SendResult)
    ensures r.Received? <==> s.main.Open? && reply.Received?
    ensures r.Received? ==> r == reply
  {
    if s.main.Open? then reply else TransportFailed
  }

  /** `json.loads(self.send(...))`: the decoded reply, or the `TypeError` of decoding `False`. */
  function Receive(s: Session, reply: SendResult): (r: PyResult<Response>)
    ensures r.Returned? <==> s.main.Open? && reply.Received?
    ensures r.Returned? ==> r.value == reply.response
    ensures r.Raised? ==> r.error == SendFailed
  {
    match Send(s, reply)
    case TransportFailed => Raised(SendFailed)
    case Received(resp) => Returned(resp)
  }

  /** The broker accepted the login: status true with a stream session id. */
  predicate LoginAccepted(s: Session, reply: SendResult) {
    s.main.Open? && reply.Received? && reply.response.status == Some(true)
      && reply.response.streamSessionId.Some?
  }

  /** The broker refused the login: status false. */
  predicate LoginRefused(s: Session, reply: SendResult) {
    s.main.Open? && reply.Received? && reply.response.status == Some(false)
  }

  /** `login()`: `None` on success (storing the stream session id), the reply itself on `status: false`. */
  function Login(s: Session, reply: SendResult): (r: Step<Option<Response>>)
    ensures r.outcome == Returned(None) <==> LoginAccepted(s, reply)
    ensures r.outcome == Returned(None) ==>
              r.session == s.(streamSessionId := reply.response.streamSessionId)
    ensures r.outcome != Returned(None) ==> r.session == s
    ensures (r.outcome.Returned? && r.outcome.value.Some?) <==> LoginRefused(s, reply)
    ensures r.outcome.Returned? && r.outcome.value.Some? ==> r.outcome.value.value == reply.response
  {
    match Receive(s, reply)
    case Raised(e) => Step(s, Raised(e))
    case Returned(resp) =>
      match resp.status
      case None => Step(s, Raised(MissingKey("status")))
      case Some(false) => Step(s, Returned(Some(resp)))
      case Some(true) =>
        match resp.streamSessionId
        case None => Step(s, Raised(MissingKey("streamSessionId")))
        case Some(id) => Step(s.(streamSessionId := Some(id)), Returned(None))
  }

  /** `logout()`: once the reply is decoded and has a status, the main socket is closed whatever the status says. */
  function Logout(s: Session, reply: SendResult): (r: Step<bool>)
    ensures r.outcome.Returned? <==> s.main.Open? && reply.Received? && reply.response.status.Some?
    ensures r.outcome == Returned(true) <==> s.main.Open? && reply.Received? && reply.response.status == Some(true)
    ensures r.outcome.Returned? ==> r.session == s.(main := Closed)
    ensures r.outcome.Raised? ==> r.session == s
    ensures r.session.streamSessionId == s.streamSessionId
  {
    match Receive(s, reply)
    case Raised(e) => Step(s, Raised(e))
    case Returned(resp) =>
      match resp.status
      case None => Step(s, Raised(MissingKey("status")))
      case Some(ok) => Step(Disconnect(s).0, Returned(ok))
  }

  /** A second `logout()` finds the main socket closed: `send` returns `False` and decoding it raises. */
  lemma LogoutTwiceRaises(s: Session, first: SendResult, second: SendResult)
    requires Logout(s, first).outcome.Returned?
    ensures Logout(Logout(s, first).session, second) == Step(Logout(s, first).session, Raised(SendFailed))
  {
  }

  /** `establish_connection()`: connect, then login; `True` exactly when `login` returned `None`. */
  function EstablishConnection(s: Session, reachable: bool, reply: SendResult): (r: Step<bool>)
    ensures r.outcome == Returned(true) <==> reachable && LoginAccepted(Connect(s, reachable), reply)
    ensures r.outcome == Returned(false) <==> reachable && LoginRefused(Connect(s, reachable), reply)
    ensures !reachable ==> r.outcome == Raised(SendFailed)
    ensures r.session.main == (if reachable then Open else Unreachable)
    ensures r.outcome == Returned(true) ==> r.session.streamSessionId == reply.response.streamSessionId
  {
    var login := Login(Connect(s, reachable), reply);
    match login.outcome
    case Raised(e) => Step(login.session, Raised(e))
    case Returned(result) => Step(login.session, Returned(result.None?))
  }

  /** A reachable server whose login reply never arrives: `send` swallows the `recv` error, and decoding its `False` raises. */
  lemma EstablishConnectionLostReply(s: Session)
    ensures EstablishConnection(s, true, TransportFailed) == Step(Connect(s, true), Raised(SendFailed))
  {
  }

  /** A new `XAPI(id, pswd)` cannot log in before it connects; once `establish_connection` succeeds it keeps
      the credentials and has no stream yet, the first `logout` returns the broker's status and closes
      the main socket, and a second `logout` raises. */
  lemma FreshSessionLifecycle(userId: string, password: string, login: SendResult, first: SendResult, second: SendResult)
    requires login.Received? && login.response.status == Some(true) && login.response.streamSessionId.Some?
    requires first.Received? && first.response.status.Some?
    ensures Login(NewSession(userId, password), login) == Step(NewSession(userId, password), Raised(SendFailed))
    ensures var est := EstablishConnection(NewSession(userId, password), true, login);
            && est.outcome == Returned(true)
            && est.session == Session(userId, password, Open, login.response.streamSessionId, [])
    ensures var est := EstablishConnection(NewSession(userId, password), true, login);
            var out := Logout(est.session, first);
            && out == Step(est.session.(main := Closed), Returned(first.response.status.value))
            && Logout(out.session, second) == Step(out.session, Raised(SendFailed))
  {
    var est := EstablishConnection(NewSession(userId, password), true, login);
    LogoutTwiceRaises(est.session, first, second);
  }

  /** `establish_connection` reports success exactly when `login` reports it, and raises exactly when `login` raises. */
  lemma EstablishConnectionFollowsLogin(s: Session, reachable: bool, reply: SendResult)
    ensures EstablishConnection(s, reachable, reply).outcome == Returned(true)
            <==> Login(Connect(s, reachable), reply).outcome == Returned(None)
    ensures EstablishConnection(s, reachable, reply).outcome.Raised?
            <==> Login(Connect(s, reachable), reply).outcome.Raised?
    ensures EstablishConnection(s, reachable, reply).session == Login(Connect(s, reachable), reply).session
  {
  }
}

=== FILE: history.dfy ===
/** `get_history(start, end, days, hours, minutes)` (xAPI.py): the choice of
    the `getTradesHistory` window and the extraction of `returnData`.

    `start` and `end` are date strings or the default `0`; the model writes
    the default as `None`. The server time, which `get_history` asks the
    broker for only when it needs it, is a parameter.
 */
module History {
  import opened Wrappers
  import opened Protocol
  import opened XapiTime
  import opened Client

  datatype Window = Window(start: int, end: int)

  /** `days != 0 or hours != 0 or minutes != 0`. */
  predicate HasRelativeWindow(days: int, hours: int, minutes: int) {
    days != 0 || hours != 0 || minutes != 0
  }

  /** An explicit bound: `0` when omitted, `time_conversion(date)` otherwise. */
  function ExplicitBound(date: Option<string>): PyResult<int> {
    match date
    case None => Returned(0)
    case Some(text) => TimeConversion(text)
  }

  /** The `start`/`end` pair `get_history` sends. */
  function HistoryWindow(start: Option<string>, end: Option<string>, days: int, hours: int, minutes: int,
                         serverTime: PyResult<int>): (r: PyResult<Window>)
    // With a relative window, the explicit dates must convert and the server time is needed only without a non-zero end ...
    ensures HasRelativeWindow(days, hours, minutes) ==>
              (r.Returned? <==> ExplicitBound(start).Returned? && ExplicitBound(end).Returned?
                                && (ExplicitBound(end).value == 0 ==> serverTime.Returned?))
    // ... the window spans exactly `to_milliseconds(days, hours, minutes)` ...
    ensures HasRelativeWindow(days, hours, minutes) && r.Returned? ==>
              r.value.end - r.value.start == ToMilliseconds(days, hours, minutes)
    // ... and ends at the explicit end when that converts to a non-zero value, at the server time otherwise.
    ensures HasRelativeWindow(days, hours, minutes) && r.Returned? ==>
              r.value.end == (if ExplicitBound(end).value != 0 then ExplicitBound(end).value else serverTime.value)
    // Without a relative window the explicit bounds are sent as converted (0 when omitted).
    ensures !HasRelativeWindow(days, hours, minutes) ==>
              (r.Returned? <==> ExplicitBound(start).Returned? && ExplicitBound(end).Returned?)
    ensures !HasRelativeWindow(days, hours, minutes) && r.Returned? ==>
              r.value == Window(ExplicitBound(start).value, ExplicitBound(end).value)
    // A date that fails to convert propagates its exception, the start's first.
    ensures ExplicitBound(start).Raised? ==> r == Raised(ExplicitBound(start).error)
    // ... then the end's; the server time's error only when the server is asked.
    ensures ExplicitBound(start).Returned? && ExplicitBound(end).Raised? ==> r == Raised(ExplicitBound(end).error)
    ensures (HasRelativeWindow(days, hours, minutes) && ExplicitBound(start).Returned?
             && ExplicitBound(end) == Returned(0) && serverTime.Raised?) ==> r == Raised(serverTime.error)
  {
    match ExplicitBound(start)
    case Raised(e) => Raised(e)
    case Returned(startMs) =>
      match ExplicitBound(end)
      case Raised(e) => Raised(e)
      case Returned(endMs) =>
        if !HasRelativeWindow(days, hours, minutes) then
          Returned(Window(startMs, endMs))
        else if endMs != 0 then
          Returned(Window(endMs - ToMilliseconds(days, hours, minutes), endMs))
        else
          match serverTime
          case Raised(e) => Raised(e)
          case Returned(now) => Returned(Window(now - ToMilliseconds(days, hours, minutes), now))
  }

  /** With a relative window the explicit start only matters through its exceptions: any two convertible starts give the same window. */
  lemma RelativeWindowOverridesStart(start1: Option<string>, start2: Option<string>, end: Option<string>,
                                     days: int, hours: int, minutes: int, serverTime: PyResult<int>)
    requires HasRelativeWindow(days, hours, minutes)
    requires ExplicitBound(start1).Returned? && ExplicitBound(start2).Returned?
    ensures HistoryWindow(start1, end, days, hours, minutes, serverTime)
            == HistoryWindow(start2, end, days, hours, minutes, serverTime)
  {
  }

  /** The server time is used only for a relative window whose end is omitted or converts to 0. */
  lemma ServerTimeOnlyWhenNeeded(start: Option<string>, end: Option<string>, days: int, hours: int, minutes: int,
                                 time1: PyResult<int>, time2: PyResult<int>)
    requires !HasRelativeWindow(days, hours, minutes)
             || (ExplicitBound(end).Returned? && ExplicitBound(end).value != 0)
    ensures HistoryWindow(start, end, days, hours, minutes, time1)
            == HistoryWindow(start, end, days, hours, minutes, time2)
  {
  }

  /** `end == 0` tests the converted end: an explicit end two hours before the epoch converts to 0 and is replaced by the server time. */
  lemma ConvertedZeroEndUsesServerTime(now: int)
    ensures HistoryWindow(None, Some("12/31/1969 22:00:00"), 1, 0, 0, Returned(now))
            == Returned(Window(now - MillisPerDay, now))
  {
    TimeConversionBeforeEpoch();
  }

  /** What `get_history` hands back: the command it sent and the reply's `returnData`. */
  datatype Exchange = Exchange(sent: Command, returnData: Json)

  /** `get_history(...)`: send `getTradesHistory` for the chosen window and return `result["returnData"]`; the reply's status is not looked at. */
  function GetHistory(s: Session, start: Option<string>, end: Option<string>, days: int, hours: int, minutes: int,
                      serverTime: PyResult<int>, reply: SendResult): (r: PyResult<Exchange>)
    ensures r.Returned? <==>
              HistoryWindow(start, end, days, hours, minutes, serverTime).Returned?
              && s.main.Open? && reply.Received? && reply.response.returnData.Some?
    ensures r.Returned? ==>
              var w := HistoryWindow(start, end, days, hours, minutes, serverTime).value;
              r.value == Exchange(HistoryCommand(w.start, w.end), reply.response.returnData.value)
    ensures HistoryWindow(start, end, days, hours, minutes, serverTime).Returned?
            && s.main.Open? && reply.Received? && reply.response.returnData.None? ==>
              r == Raised(MissingKey("returnData"))
    // A bad window raises before anything is sent; a socket that is not open, or a lost reply, makes `json.loads` raise.
    ensures HistoryWindow(start, end, days, hours, minutes, serverTime).Raised? ==>
              r == Raised(HistoryWindow(start, end, days, hours, minutes, serverTime).error)
    ensures (HistoryWindow(start, end, days, hours, minutes, serverTime).Returned?
             && !(s.main.Open? && reply.Received?)) ==> r == Raised(SendFailed)
  {
    match HistoryWindow(start, end, days, hours, minutes, serverTime)
    case Raised(e) => Raised(e)
    case Returned(w) =>
      match Receive(s, reply)
      case Raised(e) => Raised(e)
      case Returned(resp) =>
        match resp.returnData
        case None => Raised(MissingKey("returnData"))
        case Some(data) => Returned(Exchange(HistoryCommand(w.start, w.end), data))
  }
}

=== FILE: protocol.dfy ===
/** The broker's command and reply envelopes, as records rather than JSON text.

    A command is `{"command": name, "arguments": {...}}`; a decoded reply is
    `{"status": bool, "streamSessionId": str, "returnData": ...}` where any
    key may be absent. `send` on the main socket either delivers one decoded
    reply or fails (it catches the socket error and returns `False`).
 */
module Protocol {
  import opened Wrappers

  /** A decoded JSON value, for the `returnData` the client hands back untouched. */
  datatype Json =
    | JNull
    | JBool(b: bool)
    | JInt(i: int)
    | JString(s: string)
    | JArray(items: seq<Json>)
    | JObject(fields: map<string, Json>)

  /** A decoded reply; `None` marks a key the broker left out. */
  datatype Response = Response(status: Option<bool>, streamSessionId: Option<string>, returnData: Option<Json>)

  /** What the transport yields for one command on the main socket. */
  datatype SendResult = Received(response: Response) | TransportFailed

  datatype Arguments =
    | HistoryArgs(end: int, start: int)
    | ChartInfo(period: int, start: int, symbol: string)

  datatype Command = Command(name: string, arguments: Option<Arguments>)

  /** The `getTradesHistory` command `get_history` sends. */
  function HistoryCommand(start: int, end: int): (c: Command)
    ensures c.name == "getTradesHistory" && c.arguments.Some? && c.arguments.value.HistoryArgs?
    ensures c.arguments.value.start == start && c.arguments.value.end == end
  {
    Command("getTradesHistory", Some(HistoryArgs(end, start)))
  }

  /** The `getChartLastRequest` command `get_candles_from_time(symbol, period, start)` sends. */
  function ChartLastRequest(symbol: string, period: int, start: int): (c: Command)
    ensures IsChartRequest(c)
    ensures c.arguments.value.symbol == symbol && c.arguments.value.period == period
            && c.arguments.value.start == start
  {
    Command("getChartLastRequest", Some(ChartInfo(period, start, symbol)))
  }

  predicate IsChartRequest(c: Command) {
    c.name == "getChartLastRequest" && c.arguments.Some? && c.arguments.value.ChartInfo?
  }
}

=== FILE: scrapper.dfy ===
/** The candle-ingestion loop `Scrapper.get_all_symbols` and its helper
    `get_candles_from_time` (scrapper.py).

    The SQLite table `candlestick_data` is a map from ticker to that
    ticker's rows in insertion order, and `SELECT MAX(ctm) ... WHERE ticker = ?`
    is `MaxCtm` of one entry. `execute_command` (which the broker client
    does not define) is an oracle from the command sent to what the call
    does: raise, or return a reply whose `returnData.rateInfos` may be
    missing. The `asyncio.sleep(0.2)` before each fetch is a `Throttle`
    event.
 */
module Scrapper {
  import opened Wrappers
  import opened Protocol

  /** One entry of the broker's symbol list; only the short-selling flag is read. */
  datatype Instrument = Instrument(symbol: string, shortSelling: bool)

  /** One element of `returnData.rateInfos`. */
  datatype RawCandle = RawCandle(ctm: int, ctmString: string, open: real, close: real, high: real, low: real, vol: real)

  /** One row of `candlestick_data` (the autoincrement key is the row's place in its ticker's sequence). */
  datatype Row = Row(ticker: string, ctm: int, open: real, close: real, vol: real)

  type Store = map<string, seq<Row>>

  /** What awaiting `get_candles_from_time` does: raise, or return a reply with or without `returnData.rateInfos`. */
  datatype FetchResult = FetchRaised | FetchReply(rateInfos: Option<seq<RawCandle>>)

  /** The externally visible steps of a run, in order. */
  datatype Event =
    | Throttle
    | Request(command: Command)
    | Commit(ticker: string, rows: nat)
    | Skip(ticker: string)

  /** `time + 60000`: one candle period past the last stored candle. */
  const OneMinute := 60000

  /** `get_all_symbols` asks for one-minute candles. */
  const CandlePeriod := 1

  // ----- discovery -----

  /** The symbols appended to `symbols_short`: those whose `shortSelling` is true, in discovery order. */
  function ShortSellingSymbols(all: seq<Instrument>): (r: seq<string>)
    ensures |r| <= |all|
    ensures forall x :: x in r <==> exists i :: 0 <= i < |all| && all[i].shortSelling && all[i].symbol == x
    decreases |all|
  {
    if all == [] then []
    else
      var rest := ShortSellingSymbols(all[1..]);
      assert forall i :: 0 <= i < |all[1..]| ==> all[1..][i] == all[i + 1];
      (if all[0].shortSelling then [all[0].symbol] else []) + rest
  }

  /** The filter keeps discovery order: filtering a concatenation concatenates the filtered parts. */
  lemma {:induction false} ShortSellingSymbolsAppend(a: seq<Instrument>, b: seq<Instrument>)
    ensures ShortSellingSymbols(a + b) == ShortSellingSymbols(a) + ShortSellingSymbols(b)
    decreases |a|
  {
    if a == [] {
      assert a + b == b;
    } else {
      assert (a + b)[0] == a[0];
      assert (a + b)[1..] == a[1..] + b;
      ShortSellingSymbolsAppend(a[1..], b);
    }
  }

  // ----- checkpoint -----

  function Rows(store: Store, ticker: string): seq<Row> {
    if ticker in store then store[ticker] else []
  }

  /** `MAX(ctm)` over a ticker's rows; `None` is SQL `NULL`. */
  function MaxCtm(rows: seq<Row>): (m: Option<int>)
    ensures m.None? <==> rows == []
    ensures m.Some? ==> forall i :: 0 <= i < |rows| ==> rows[i].ctm <= m.value
    ensures m.Some? ==> exists i :: 0 <= i < |rows| && rows[i].ctm == m.value
    decreases |rows|
  {
    if rows == [] then None
    else
      match MaxCtm(rows[1..])
      case None => Some(rows[0].ctm)
      case Some(m) =>
        assert forall i :: 1 <= i < |rows| ==> rows[i] == rows[1..][i - 1];
        Some(if rows[0].ctm > m then rows[0].ctm else m)
  }

  /** Where the fetch for `ticker` starts: one minute after its latest stored candle, or the default start. */
  function ResumePoint(store: Store, ticker: string, defaultTime: int): (start: int)
    ensures Rows(store, ticker) == [] ==> start == defaultTime
    ensures forall i :: 0 <= i < |Rows(store, ticker)| ==> Rows(store, ticker)[i].ctm + OneMinute <= start
    ensures Rows(store, ticker) != [] ==>
              exists i :: 0 <= i < |Rows(store, ticker)| && Rows(store, ticker)[i].ctm + OneMinute == start
  {
    match MaxCtm(Rows(store, ticker))
    case None => defaultTime
    case Some(latest) => latest + OneMinute
  }

  // ----- normalisation and persistence -----

  /** A candle with `ctmString`, `high` and `low` deleted, inserted under `ticker`. */
  function Normalize(ticker: string, c: RawCandle): Row {
    Row(ticker, c.ctm, c.open, c.close, c.vol)
  }

  function NormalizeAll(ticker: string, candles: seq<RawCandle>): (rows: seq<Row>)
    ensures |rows| == |candles|
    ensures forall i :: 0 <= i < |rows| ==> rows[i] == Normalize(ticker, candles[i])
    // Column by column: the ticker, then the candle's `ctm`, `open`, `close` and `vol`, in candle order.
    ensures forall i :: 0 <= i < |rows| ==>
              && rows[i].ticker == ticker && rows[i].ctm == candles[i].ctm && rows[i].open == candles[i].open
              && rows[i].close == candles[i].close && rows[i].vol == candles[i].vol
  {
    seq(|candles|, i requires 0 <= i < |candles| => Normalize(ticker, candles[i]))
  }

  /** A stored row records its ticker and exactly the candle's `ctm`, `open`, `close` and `vol`: two candles give the same row iff those four agree. */
  lemma NormalizeKeepsExactlyFourFields(ticker: string, a: RawCandle, b: RawCandle)
    ensures Normalize(ticker, a).ticker == ticker
    ensures Normalize(ticker, a) == Normalize(ticker, b)
            <==> a.ctm == b.ctm && a.open == b.open && a.close == b.close && a.vol == b.vol
  {
  }

  /** `executemany(INSERT ...)` then `commit()`: the rows go after the ticker's existing ones. */
  function Append(store: Store, ticker: string, rows: seq<Row>): Store {
    store[ticker := Rows(store, ticker) + rows]
  }

  // ----- one symbol -----

  datatype SymbolStep = SymbolStep(store: Store, events: seq<Event>, continues: bool)

  /** `get_candles_from_time(symbol, 1, start)` for the symbol's resume point. */
  function FetchRequest(store: Store, symbol: string, defaultTime: int): (c: Command)
    ensures IsChartRequest(c)
    ensures c.arguments.value == ChartInfo(CandlePeriod, ResumePoint(store, symbol, defaultTime), symbol)
  {
    ChartLastRequest(symbol, CandlePeriod, ResumePoint(store, symbol, defaultTime))
  }

  /** One iteration of the `for` loop over `symbols_short`. A raising fetch is caught and the loop
      continues; a reply without `returnData.rateInfos` raises outside the `try` and ends the run. */
  function ProcessSymbol(store: Store, symbol: string, fetch: Command -> FetchResult, defaultTime: int): (r: SymbolStep)
    ensures |r.events| >= 2 && r.events[0] == Throttle
    ensures r.events[1] == Request(FetchRequest(store, symbol, defaultTime))
    ensures forall i :: 2 <= i < |r.events| ==> !r.events[i].Request? && !r.events[i].Throttle?
    ensures r.continues <==> fetch(FetchRequest(store, symbol, defaultTime)) != FetchReply(None)
    ensures fetch(FetchRequest(store, symbol, defaultTime)).FetchRaised? ==> r.store == store
    ensures forall t :: t != symbol ==> Rows(r.store, t) == Rows(store, t)
    ensures Rows(store, symbol) <= Rows(r.store, symbol)
    ensures forall i :: |Rows(store, symbol)| <= i < |Rows(r.store, symbol)| ==> Rows(r.store, symbol)[i].ticker == symbol
    // A raising fetch is skipped; a full reply has all its candles appended, normalised, then committed.
    ensures fetch(FetchRequest(store, symbol, defaultTime)).FetchRaised? ==> r.events[2..] == [Skip(symbol)]
    ensures var f := fetch(FetchRequest(store, symbol, defaultTime));
            f.FetchReply? && f.rateInfos.Some? ==>
              && Rows(r.store, symbol) == Rows(store, symbol) + NormalizeAll(symbol, f.rateInfos.value)
              && r.events[2..] == [Commit(symbol, |f.rateInfos.value|)]
    ensures !r.continues ==> |r.events| == 2
    // The missing `rateInfos` raises before `executemany`, so nothing of the symbol is stored.
    ensures !r.continues ==> r.store == store
  {
    var request := FetchRequest(store, symbol, defaultTime);
    match fetch(request)
    case FetchRaised => SymbolStep(store, [Throttle, Request(request), Skip(symbol)], true)
    case FetchReply(None) => SymbolStep(store, [Throttle, Request(request)], false)
    case FetchReply(Some(candles)) =>
      var rows := NormalizeAll(symbol, candles);
      SymbolStep(Append(store, symbol, rows), [Throttle, Request(request), Commit(symbol, |candles|)], true)
  }

  predicate StartsAt(candles: seq<RawCandle>, start: int) {
    forall i :: 0 <= i < |candles| ==> start <= candles[i].ctm
  }

  predicate AscendingCandles(candles: seq<RawCandle>) {
    forall i, j :: 0 <= i < j < |candles| ==> candles[i].ctm < candles[j].ctm
  }

  /** The broker answers a chart request only with candles at or after the requested start. */
  ghost predicate RespectsStart(fetch: Command -> FetchResult) {
    forall c: Command :: IsChartRequest(c) && fetch(c).FetchReply? && fetch(c).rateInfos.Some? ==>
      StartsAt(fetch(c).rateInfos.value, c.arguments.value.start)
  }

  /** ... and in strictly increasing time order. */
  ghost predicate AscendingReplies(fetch: Command -> FetchResult) {
    forall c: Command :: IsChartRequest(c) && fetch(c).FetchReply? && fetch(c).rateInfos.Some? ==>
      AscendingCandles(fetch(c).rateInfos.value)
  }

  /** The boundary candle is never stored twice: every row appended for a ticker is later than every row it already had. */
  lemma AppendedRowsFollowStoredOnes(store: Store, symbol: string, fetch: Command -> FetchResult, defaultTime: int)
    requires RespectsStart(fetch)
    ensures var before := Rows(store, symbol);
            var after := Rows(ProcessSymbol(store, symbol, fetch, defaultTime).store, symbol);
            forall i, j :: 0 <= i < |before| <= j < |after| ==> before[i].ctm < after[j].ctm
  {
    var request := FetchRequest(store, symbol, defaultTime);
    var before := Rows(store, symbol);
    var after := Rows(ProcessSymbol(store, symbol, fetch, defaultTime).store, symbol);
    if fetch(request).FetchReply? && fetch(request).rateInfos.Some? {
      var candles := fetch(request).rateInfos.value;
      assert IsChartRequest(request);
      assert StartsAt(candles, ResumePoint(store, symbol, defaultTime));
      assert after == before + NormalizeAll(symbol, candles);
      forall i, j | 0 <= i < |before| <= j < |after|
        ensures before[i].ctm < after[j].ctm
      {
        assert after[j] == Normalize(symbol, candles[j - |before|]);
      }
    }
  }

  // ----- the stored table's invariant -----

  /** A ticker's history: every row carries the ticker, and timestamps strictly increase. */
  predicate ValidHistory(rows: seq<Row>, ticker: string) {
    && (forall i :: 0 <= i < |rows| ==> rows[i].ticker == ticker)
    && (forall i, j :: 0 <= i < j < |rows| ==> rows[i].ctm < rows[j].ctm)
  }

  predicate ValidStore(store: Store) {
    forall t :: t in store ==> ValidHistory(store[t], t)
  }

  /** Two valid histories of one ticker, the second entirely later, concatenate to a valid history. */
  lemma ConcatHistories(a: seq<Row>, b: seq<Row>, ticker: string)
    requires ValidHistory(a, ticker) && ValidHistory(b, ticker)
    requires forall i, j :: 0 <= i < |a| && 0 <= j < |b| ==> a[i].ctm < b[j].ctm
    ensures ValidHistory(a + b, ticker)
  {
    var ab := a + b;
    forall i, j | 0 <= i < j < |ab|
      ensures ab[i].ctm < ab[j].ctm
    {
      if j < |a| {
        assert ab[i] == a[i] && ab[j] == a[j];
      } else if i < |a| {
        assert ab[i] == a[i] && ab[j] == b[j - |a|];
      } else {
        assert ab[i] == b[i - |a|] && ab[j] == b[j - |a|];
      }
    }
  }

  lemma NormalizedHistory(ticker: string, candles: seq<RawCandle>)
    requires AscendingCandles(candles)
    ensures ValidHistory(NormalizeAll(ticker, candles), ticker)
  {
  }

  /** The rows a step leaves for its own ticker still form a valid history. */
  lemma ProcessSymbolKeepsHistoryValid(store: Store, symbol: string, fetch: Command -> FetchResult, defaultTime: int)
    requires ValidHistory(Rows(store, symbol), symbol)
    requires RespectsStart(fetch) && AscendingReplies(fetch)
    ensures ValidHistory(Rows(ProcessSymbol(store, symbol, fetch, defaultTime).store, symbol), symbol)
  {
    var request := FetchRequest(store, symbol, defaultTime);
    if fetch(request).FetchReply? && fetch(request).rateInfos.Some? {
      var candles := fetch(request).rateInfos.value;
      var before := Rows(store, symbol);
      var rows := NormalizeAll(symbol, candles);
      var start := ResumePoint(store, symbol, defaultTime);
      assert IsChartRequest(request);
      assert StartsAt(candles, start);
      assert AscendingCandles(candles);
      NormalizedHistory(symbol, candles);
      forall i, j | 0 <= i < |before| && 0 <= j < |rows|
        ensures before[i].ctm < rows[j].ctm
      {
        assert before[i].ctm + OneMinute <= start <= candles[j].ctm;
      }
      ConcatHistories(before, rows, symbol);
      assert Rows(ProcessSymbol(store, symbol, fetch, defaultTime).store, symbol) == before + rows;
    }
  }

  lemma ProcessSymbolKeepsStoreValid(store: Store, symbol: string, fetch: Command -> FetchResult, defaultTime: int)
    requires ValidStore(store)
    requires RespectsStart(fetch) && AscendingReplies(fetch)
    ensures ValidStore(ProcessSymbol(store, symbol, fetch, defaultTime).store)
  {
    var step := ProcessSymbol(store, symbol, fetch, defaultTime);
    ProcessSymbolKeepsHistoryValid(store, symbol, fetch, defaultTime);
    forall t | t in step.store
      ensures ValidHistory(step.store[t], t)
    {
      assert step.store[t] == Rows(step.store, t);
      if t != symbol {
        assert Rows(step.store, t) == Rows(store, t);
      }
    }
  }

  // ----- the whole run -----

  datatype Run = Run(store: Store, events: seq<Event>, completed: bool)

  /** The `for` loop of `get_all_symbols` over `symbols`, in order, one symbol at a time. */
  function Ingest(store: Store, symbols: seq<string>, fetch: Command -> FetchResult, defaultTime: int): (r: Run)
    // Every visited symbol leaves three events (throttle, request, commit or skip), except an aborting one, which leaves two.
    ensures r.completed ==> |r.events| == 3 * |symbols|
    ensures !r.completed ==> 2 <= |r.events| < 3 * |symbols|
    decreases |symbols|
  {
    if symbols == [] then Run(store, [], true)
    else
      var step := ProcessSymbol(store, symbols[0], fetch, defaultTime);
      if !step.continues then Run(step.store, step.events, false)
      else
        assert |step.events| == 3 by {
          assert step.events == step.events[..2] + step.events[2..];
        }
        var rest := Ingest(step.store, symbols[1..], fetch, defaultTime);
        Run(rest.store, step.events + rest.events, rest.completed)
  }

  /** The commands a run sent, in order. */
  function Requests(events: seq<Event>): seq<Command>
    decreases |events|
  {
    if events == [] then []
    else (if events[0].Request? then [events[0].command] else []) + Requests(events[1..])
  }

  lemma {:induction false} RequestsAppend(a: seq<Event>, b: seq<Event>)
    ensures Requests(a + b) == Requests(a) + Requests(b)
    decreases |a|
  {
    if a == [] {
      assert a + b == b;
    } else {
      assert (a + b)[0] == a[0];
      assert (a + b)[1..] == a[1..] + b;
      RequestsAppend(a[1..], b);
    }
  }

  lemma StepRequests(store: Store, symbol: string, fetch: Command -> FetchResult, defaultTime: int)
    ensures Requests(ProcessSymbol(store, symbol, fetch, defaultTime).events) == [FetchRequest(store, symbol, defaultTime)]
  {
    var ev := ProcessSymbol(store, symbol, fetch, defaultTime).events;
    assert ev[1..][1..] == ev[2..];
    assert Requests(ev) == Requests(ev[1..]);
    assert Requests(ev[1..]) == [ev[1].command] + Requests(ev[2..]);
    if |ev| == 3 {
      assert ev[2..][1..] == [];
    }
    assert Requests(ev[2..]) == [];
  }

  /** Rows of tickers the run does not visit stay as they were, and no ticker loses rows. */
  lemma {:induction false} IngestOnlyAppends(store: Store, symbols: seq<string>, fetch: Command -> FetchResult, defaultTime: int)
    ensures forall t :: t !in symbols ==> Rows(Ingest(store, symbols, fetch, defaultTime).store, t) == Rows(store, t)
    ensures forall t :: Rows(store, t) <= Rows(Ingest(store, symbols, fetch, defaultTime).store, t)
    decreases |symbols|
  {
    if symbols != [] {
      var step := ProcessSymbol(store, symbols[0], fetch, defaultTime);
      if step.continues {
        IngestOnlyAppends(step.store, symbols[1..], fetch, defaultTime);
        forall t | t !in symbols
          ensures Rows(Ingest(store, symbols, fetch, defaultTime).store, t) == Rows(store, t)
        {
          assert t !in symbols[1..];
        }
        forall t
          ensures Rows(store, t) <= Rows(Ingest(store, symbols, fetch, defaultTime).store, t)
        {
          assert Rows(store, t) <= Rows(step.store, t);
        }
      }
    }
  }

  /** Every request in `ev` comes right after a throttle. */
  predicate ThrottledRequests(ev: seq<Event>) {
    forall i :: 0 <= i < |ev| && ev[i].Request? ==> 0 < i && ev[i - 1] == Throttle
  }

  lemma ThrottledConcat(a: seq<Event>, b: seq<Event>)
    requires ThrottledRequests(a) && ThrottledRequests(b)
    ensures ThrottledRequests(a + b)
  {
    var ab := a + b;
    forall i | 0 <= i < |ab| && ab[i].Request?
      ensures 0 < i && ab[i - 1] == Throttle
    {
      if i < |a| {
        assert ab[i] == a[i] && ab[i - 1] == a[i - 1];
      } else {
        var j := i - |a|;
        assert ab[i] == b[j];
        assert 0 < j;
        assert ab[i - 1] == b[j - 1];
      }
    }
  }

  /** Every fetch is preceded by the 200 ms throttle. */
  lemma {:induction false} IngestThrottlesEveryRequest(store: Store, symbols: seq<string>, fetch: Command -> FetchResult, defaultTime: int)
    ensures ThrottledRequests(Ingest(store, symbols, fetch, defaultTime).events)
    decreases |symbols|
  {
    if symbols != [] {
      var step := ProcessSymbol(store, symbols[0], fetch, defaultTime);
      assert ThrottledRequests(step.events);
      if step.continues {
        IngestThrottlesEveryRequest(step.store, symbols[1..], fetch, defaultTime);
        ThrottledConcat(step.events, Ingest(step.store, symbols[1..], fetch, defaultTime).events);
      }
    }
  }

  /** No chart reply lacks `returnData.rateInfos`. */
  ghost predicate WellFormedReplies(fetch: Command -> FetchResult) {
    forall c: Command :: IsChartRequest(c) ==> fetch(c) != FetchReply(None)
  }

  /** `rs` asks, in order, for one-minute candles of each of `symbols`. */
  predicate ChartRequestsFor(rs: seq<Command>, symbols: seq<string>) {
    && |rs| == |symbols|
    && forall k :: 0 <= k < |symbols| ==>
         IsChartRequest(rs[k]) && rs[k].arguments.value.symbol == symbols[k]
         && rs[k].arguments.value.period == CandlePeriod
  }

  lemma ChartRequestsCons(c: Command, rest: seq<Command>, symbols: seq<string>)
    requires symbols != []
    requires IsChartRequest(c) && c.arguments.value.symbol == symbols[0] && c.arguments.value.period == CandlePeriod
    requires ChartRequestsFor(rest, symbols[1..])
    ensures ChartRequestsFor([c] + rest, symbols)
  {
    var rs := [c] + rest;
    forall k | 0 < k < |symbols|
      ensures IsChartRequest(rs[k]) && rs[k].arguments.value.symbol == symbols[k]
              && rs[k].arguments.value.period == CandlePeriod
    {
      assert rs[k] == rest[k - 1];
      assert symbols[1..][k - 1] == symbols[k];
    }
  }

  /** Failed fetches do not stop the loop: when every reply is well formed the run completes and asks,
      in list order, for one-minute candles of every symbol. */
  lemma {:induction false} IngestVisitsEverySymbol(store: Store, symbols: seq<string>, fetch: Command -> FetchResult, defaultTime: int)
    requires WellFormedReplies(fetch)
    ensures Ingest(store, symbols, fetch, defaultTime).completed
    ensures ChartRequestsFor(Requests(Ingest(store, symbols, fetch, defaultTime).events), symbols)
    decreases |symbols|
  {
    if symbols != [] {
      var step := ProcessSymbol(store, symbols[0], fetch, defaultTime);
      var c := FetchRequest(store, symbols[0], defaultTime);
      assert IsChartRequest(c);
      IngestVisitsEverySymbol(step.store, symbols[1..], fetch, defaultTime);
      var rest := Ingest(step.store, symbols[1..], fetch, defaultTime);
      StepRequests(store, symbols[0], fetch, defaultTime);
      RequestsAppend(step.events, rest.events);
      assert Requests(Ingest(store, symbols, fetch, defaultTime).events) == [c] + Requests(rest.events);
      ChartRequestsCons(c, Requests(rest.events), symbols);
    }
  }

  /** The last event is a request whose reply lacks `returnData.rateInfos`. */
  predicate EndsOnMalformedReply(events: seq<Event>, fetch: Command -> FetchResult) {
    |events| > 0 && events[|events| - 1].Request? && fetch(events[|events| - 1].command) == FetchReply(None)
  }

  lemma EndsOnMalformedReplyConcat(a: seq<Event>, b: seq<Event>, fetch: Command -> FetchResult)
    requires EndsOnMalformedReply(b, fetch)
    ensures EndsOnMalformedReply(a + b, fetch)
  {
    assert (a + b)[|a + b| - 1] == b[|b| - 1];
  }

  /** A run stops early only on a reply without `returnData.rateInfos`, right after sending that request. */
  lemma {:induction false} IngestStopsOnlyOnMalformedReply(store: Store, symbols: seq<string>, fetch: Command -> FetchResult, defaultTime: int)
    ensures !Ingest(store, symbols, fetch, defaultTime).completed ==>
              EndsOnMalformedReply(Ingest(store, symbols, fetch, defaultTime).events, fetch)
    decreases |symbols|
  {
    if symbols != [] {
      var step := ProcessSymbol(store, symbols[0], fetch, defaultTime);
      if step.continues {
        IngestStopsOnlyOnMalformedReply(step.store, symbols[1..], fetch, defaultTime);
        var rest := Ingest(step.store, symbols[1..], fetch, defaultTime);
        if !rest.completed {
          EndsOnMalformedReplyConcat(step.events, rest.events, fetch);
        }
      } else {
        assert step.events[|step.events| - 1] == Request(FetchRequest(store, symbols[0], defaultTime));
      }
    }
  }

  /** The three events the `k`-th visited symbol leaves: the pause, a chart request for that symbol,
      then either its skip or the commit of its rows. */
  predicate SymbolEventsAt(events: seq<Event>, k: nat, symbol: string) {
    && 3 * k + 2 < |events|
    && events[3 * k] == Throttle
    && events[3 * k + 1].Request? && IsChartRequest(events[3 * k + 1].command)
    && events[3 * k + 1].command.arguments.value.symbol == symbol
    && (events[3 * k + 2] == Skip(symbol) || (events[3 * k + 2].Commit? && events[3 * k + 2].ticker == symbol))
  }

  /** Every symbol of the list, in order, left its three events. */
  predicate EventsPerSymbol(events: seq<Event>, symbols: seq<string>) {
    forall k :: 0 <= k < |symbols| ==> SymbolEventsAt(events, k, symbols[k])
  }

  lemma SymbolEventsShift(a: seq<Event>, b: seq<Event>, k: nat, symbol: string)
    requires |a| == 3 && SymbolEventsAt(b, k, symbol)
    ensures SymbolEventsAt(a + b, k + 1, symbol)
  {
    assert (a + b)[3 * (k + 1)] == b[3 * k];
    assert (a + b)[3 * (k + 1) + 1] == b[3 * k + 1];
    assert (a + b)[3 * (k + 1) + 2] == b[3 * k + 2];
  }

  lemma EventsPerSymbolCons(a: seq<Event>, b: seq<Event>, symbols: seq<string>)
    requires symbols != [] && |a| == 3 && SymbolEventsAt(a, 0, symbols[0])
    requires EventsPerSymbol(b, symbols[1..])
    ensures EventsPerSymbol(a + b, symbols)
  {
    forall k | 0 <= k < |symbols|
      ensures SymbolEventsAt(a + b, k, symbols[k])
    {
      if k == 0 {
        assert (a + b)[..3] == a;
      } else {
        assert symbols[k] == symbols[1..][k - 1];
        SymbolEventsShift(a, b, k - 1, symbols[k]);
      }
    }
  }

  /** A symbol whose fetch lets the loop go on leaves exactly its three events. */
  lemma ContinuingStepEvents(store: Store, symbol: string, fetch: Command -> FetchResult, defaultTime: int)
    requires ProcessSymbol(store, symbol, fetch, defaultTime).continues
    ensures |ProcessSymbol(store, symbol, fetch, defaultTime).events| == 3
    ensures SymbolEventsAt(ProcessSymbol(store, symbol, fetch, defaultTime).events, 0, symbol)
  {
  }

  /** A completed run's log is the symbols in order, three events each: throttle, request, then skip or commit. */
  lemma {:induction false} IngestEventsPerSymbol(store: Store, symbols: seq<string>, fetch: Command -> FetchResult, defaultTime: int)
    ensures var run := Ingest(store, symbols, fetch, defaultTime);
            run.completed ==> EventsPerSymbol(run.events, symbols)
    decreases |symbols|
  {
    var run := Ingest(store, symbols, fetch, defaultTime);
    if symbols != [] && run.completed {
      var step := ProcessSymbol(store, symbols[0], fetch, defaultTime);
      ContinuingStepEvents(store, symbols[0], fetch, defaultTime);
      IngestEventsPerSymbol(step.store, symbols[1..], fetch, defaultTime);
      EventsPerSymbolCons(step.events, Ingest(step.store, symbols[1..], fetch, defaultTime).events, symbols);
    }
  }

  /** Partial-failure isolation: a symbol whose fetch always raises leaves the stored data exactly as if it were not in the list. */
  lemma {:induction false} FailingSymbolIsSkipped(store: Store, symbols: seq<string>, k: nat,
                                                   fetch: Command -> FetchResult, defaultTime: int)
    requires k < |symbols|
    requires forall start :: fetch(ChartLastRequest(symbols[k], CandlePeriod, start)) == FetchRaised
    ensures Ingest(store, symbols, fetch, defaultTime).store
            == Ingest(store, symbols[..k] + symbols[k + 1..], fetch, defaultTime).store
    ensures Ingest(store, symbols, fetch, defaultTime).completed
            == Ingest(store, symbols[..k] + symbols[k + 1..], fetch, defaultTime).completed
    decreases k
  {
    var without := symbols[..k] + symbols[k + 1..];
    var step := ProcessSymbol(store, symbols[0], fetch, defaultTime);
    if k == 0 {
      assert without == symbols[1..];
      assert fetch(FetchRequest(store, symbols[0], defaultTime)) == FetchRaised;
    } else {
      assert without[0] == symbols[0];
      assert without[1..] == symbols[1..][..k - 1] + symbols[1..][k..];
      if step.continues {
        FailingSymbolIsSkipped(step.store, symbols[1..], k - 1, fetch, defaultTime);
      }
    }
  }

  /** With an honest broker the table's invariant survives a run: no duplicate or out-of-order `ctm` for any ticker. */
  lemma {:induction false} IngestKeepsStoreValid(store: Store, symbols: seq<string>, fetch: Command -> FetchResult, defaultTime: int)
    requires ValidStore(store)
    requires RespectsStart(fetch) && AscendingReplies(fetch)
    ensures ValidStore(Ingest(store, symbols, fetch, defaultTime).store)
    decreases |symbols|
  {
    if symbols != [] {
      var step := ProcessSymbol(store, symbols[0], fetch, defaultTime);
      ProcessSymbolKeepsStoreValid(store, symbols[0], fetch, defaultTime);
      if step.continues {
        IngestKeepsStoreValid(step.store, symbols[1..], fetch, defaultTime);
      }
    }
  }

  // ----- get_all_symbols -----

  /** The `Scrapper` fields the loop touches. */
  /** The scrapper's attributes that outlive a call: `symbols_short`, the table, and whether `con_sql` is still open. */
  datatype ScrapperState = ScrapperState(symbolsShort: seq<string>, store: Store, dbOpen: bool)

  /** `get_all_symbols()`: append the short-sellable symbols to `symbols_short`, ingest every entry of it, then
      close the connection. A run that aborts skips the close; on a closed connection the first `SELECT` raises. */
  function GetAllSymbols(s: ScrapperState, discovered: seq<Instrument>, fetch: Command -> FetchResult, defaultTime: int)
    : (r: (ScrapperState, PyResult<Run>))
    // `symbols_short` is never reset: earlier entries stay in front, and the new ones are the short-sellable instruments.
    ensures |s.symbolsShort| <= |r.0.symbolsShort|
    ensures r.0.symbolsShort[..|s.symbolsShort|] == s.symbolsShort
    ensures forall x :: x in r.0.symbolsShort[|s.symbolsShort|..] <==>
              exists i :: 0 <= i < |discovered| && discovered[i].shortSelling && discovered[i].symbol == x
    ensures r.0.symbolsShort[|s.symbolsShort|..] == ShortSellingSymbols(discovered)
    // A closed connection raises before anything is fetched, unless the loop has nothing to visit.
    ensures r.1.Raised? <==> !s.dbOpen && r.0.symbolsShort != []
    ensures r.1.Raised? ==> r.1.error == DatabaseClosed && r.0.store == s.store && !r.0.dbOpen
    // Otherwise the loop walks the whole list, earlier entries included, from the store as it was.
    ensures r.1.Returned? ==> r.1.value == Ingest(s.store, r.0.symbolsShort, fetch, defaultTime)
    ensures r.1.Returned? ==> r.0.store == r.1.value.store
    // The connection stays open exactly when the run aborted before `con_sql.close()`.
    ensures r.1.Returned? ==> (r.0.dbOpen <==> !r.1.value.completed)
  {
    var symbols := s.symbolsShort + ShortSellingSymbols(discovered);
    if !s.dbOpen && symbols != [] then
      (s.(symbolsShort := symbols), Raised(DatabaseClosed))
    else
      var run := Ingest(s.store, symbols, fetch, defaultTime);
      (ScrapperState(symbols, run.store, !run.completed), Returned(run))
  }

  /** On a fresh scrapper the run asks for exactly the short-sellable symbols, in discovery order, and touches no other ticker. */
  lemma GetAllSymbolsFetchesShortSellable(store: Store, discovered: seq<Instrument>, fetch: Command -> FetchResult, defaultTime: int)
    requires WellFormedReplies(fetch)
    ensures var (s', out) := GetAllSymbols(ScrapperState([], store, true), discovered, fetch, defaultTime);
            var rs := Requests(out.value.events);
            && out.Returned? && out.value.completed && !s'.dbOpen
            && s'.symbolsShort == ShortSellingSymbols(discovered)
            && |rs| == |ShortSellingSymbols(discovered)|
            && (forall k :: 0 <= k < |rs| ==>
                  IsChartRequest(rs[k]) && rs[k].arguments.value.symbol == ShortSellingSymbols(discovered)[k])
            && (forall t :: (forall i :: 0 <= i < |discovered| && discovered[i].symbol == t ==> !discovered[i].shortSelling) ==>
                  Rows(s'.store, t) == Rows(store, t))
  {
    var symbols := ShortSellingSymbols(discovered);
    assert [] + symbols == symbols;
    IngestVisitsEverySymbol(store, symbols, fetch, defaultTime);
    IngestOnlyAppends(store, symbols, fetch, defaultTime);
  }

  /** A call after a completed run finds `con_sql` closed: it still extends `symbols_short`, then raises at the
      first `SELECT` without fetching anything or touching the table. Only an aborted run lets a later call ingest again. */
  lemma GetAllSymbolsAfterCompletedRunRaises(s: ScrapperState, first: seq<Instrument>, second: seq<Instrument>,
                                             fetch: Command -> FetchResult, defaultTime: int)
    requires GetAllSymbols(s, first, fetch, defaultTime).1.Returned?
    requires GetAllSymbols(s, first, fetch, defaultTime).1.value.completed
    requires GetAllSymbols(s, first, fetch, defaultTime).0.symbolsShort != []
    ensures var s1 := GetAllSymbols(s, first, fetch, defaultTime).0;
            GetAllSymbols(s1, second, fetch, defaultTime)
            == (s1.(symbolsShort := s1.symbolsShort + ShortSellingSymbols(second)), Raised(DatabaseClosed))
  {
    var s1 := GetAllSymbols(s, first, fetch, defaultTime).0;
    assert !s1.dbOpen;
    assert s1.symbolsShort + ShortSellingSymbols(second) != [] by {
      assert |s1.symbolsShort + ShortSellingSymbols(second)| >= |s1.symbolsShort| > 0;
    }
  }
}

=== FILE: streams.dfy ===
/** The stream-socket registry of the `XAPI` class (xAPI.py):
    `create_stream_connection` appends every socket it opens to
    `stream_socket_list`, and `close_all_stream_connections` tries to close
    each of them, swallowing every error.
 */
module Streams {
  import opened Wrappers
  import opened Client

  /** `create_stream_connection()`: `connected` is the socket `websockets.connect` opened, `None` if it raised. */
  function CreateStreamConnection(s: Session, connected: Option<StreamSocket>): (r: Step<StreamSocket>)
    ensures connected.None? ==> r == Step(s, Raised(ConnectError))
    ensures connected.Some? ==> r.outcome == Returned(connected.value)
    ensures connected.Some? ==> |r.session.streams| == |s.streams| + 1
    ensures connected.Some? ==> r.session.streams[..|s.streams|] == s.streams
    ensures connected.Some? ==> r.session.streams[|s.streams|] == r.outcome.value
    ensures r.session == s.(streams := r.session.streams)
  {
    match connected
    case None => Step(s, Raised(ConnectError))
    case Some(ws) =>
      var list := s.streams + [ws];
      Step(s.(streams := list), Returned(list[|list| - 1]))
  }

  /** A socket after `await ws.close()`: closed, unless the close raised. */
  function AfterClose(ws: StreamSocket, closeFails: StreamSocket -> bool): StreamSocket {
    if closeFails(ws) then ws else ws.(open := false)
  }

  /** `close_all_stream_connections()`: one close attempt per listed socket, in list order;
      a failing close leaves its socket as it was and the loop goes on. The list keeps its length:
      closed sockets are not removed from it. */
  method CloseAllStreamConnections(s: Session, closeFails: StreamSocket -> bool)
    returns (s': Session, attempted: seq<StreamSocket>)
    ensures attempted == s.streams
    ensures s' == s.(streams := s'.streams)
    ensures |s'.streams| == |s.streams|
    ensures forall i :: 0 <= i < |s.streams| && !closeFails(s.streams[i]) ==> !s'.streams[i].open
    ensures forall i :: 0 <= i < |s.streams| && closeFails(s.streams[i]) ==> s'.streams[i] == s.streams[i]
    ensures forall i :: 0 <= i < |s.streams| ==> s'.streams[i].id == s.streams[i].id
  {
    var after: seq<StreamSocket> := [];
    attempted := [];
    for i := 0 to |s.streams|
      invariant attempted == s.streams[..i]
      invariant |after| == i
      invariant forall k :: 0 <= k < i ==> after[k] == AfterClose(s.streams[k], closeFails)
    {
      var ws := s.streams[i];
      attempted := attempted + [ws];
      after := after + [AfterClose(ws, closeFails)];
    }
    s' := s.(streams := after);
  }
}

=== FILE: wrappers.dfy ===
/** Failure-carrying datatypes shared by the whole model.

    The client is written in Python, where a failed step raises an exception
    that unwinds to the caller. Every operation of the model that can raise
    returns an `PyResult`: either the value the Python function returns, or
    the exception it lets escape.
 */
module Wrappers {

  /** Some/None, for optional JSON fields and SQL `NULL`. */
  datatype Option<+T> = None | Some(value: T)

  /** The exceptions the modelled code lets escape. */
  datatype Error =
    /** `send` swallowed a socket error and returned `False`; `json.loads(False)` raises `TypeError`. */
    | SendFailed
    /** A `KeyError` on a decoded reply (`result["status"]`, `result["returnData"]`, ...). */
    | MissingKey(key: string)
    /** `datetime.strptime` rejected the date string (`ValueError`). */
    | BadDate
    /** `temp.split(", ")` yielded one part where two are unpacked (`ValueError`). */
    | NotEnoughValues
    /** `websockets.connect` could not open a stream socket. */
    | ConnectError
    /** A query on a closed SQLite connection (`sqlite3.ProgrammingError`). */
    | DatabaseClosed

  /** What a Python call does: return a value or raise. */
  datatype PyResult<+T> = Returned(value: T) | Raised(error: Error)
}

=== FILE: xapi_time.dfy ===
/** The static time helpers of the `XAPI` class: `to_milliseconds` and
    `time_conversion` (xAPI.py).

    `time_conversion` subtracts `datetime(1970, 1, 1)` from the parsed date,
    renders the resulting `timedelta` as text (`"N days, H:MM:SS"`), splits
    that text on `", "` and on `":"`, and adds the pieces back up with two
    extra hours. The model follows those steps with `timedelta`'s own
    normalisation (whole days, then seconds of the day), and its contract
    relates the result to the plain elapsed time since the epoch.
 */
module XapiTime {
  import opened Wrappers
  import opened Calendar

  const MillisPerMinute := 60 * 1000
  const MillisPerHour := 60 * MillisPerMinute
  const MillisPerDay := 24 * MillisPerHour

  /** The fixed two-hour shift `time_conversion` adds (`hours += 2`). */
  const OffsetMillis := 2 * MillisPerHour

  /** `to_milliseconds(days, hours, minutes)`: a window length, the total number of minutes in milliseconds. */
  function ToMilliseconds(days: int, hours: int, minutes: int): (ms: int)
    ensures ms == ((days * 24 + hours) * 60 + minutes) * MillisPerMinute
  {
    (days * 24 * 60 * 60 * 1000) + (hours * 60 * 60 * 1000) + (minutes * 60 * 1000)
  }

  /** A window length is always a whole number of minutes. */
  lemma ToMillisecondsWholeMinutes(days: int, hours: int, minutes: int)
    ensures ToMilliseconds(days, hours, minutes) % MillisPerMinute == 0
  {
    var n := (days * 24 + hours) * 60 + minutes;
    assert ToMilliseconds(days, hours, minutes) == n * MillisPerMinute;
    assert (n * MillisPerMinute) / MillisPerMinute == n;
  }

  lemma ToMillisecondsZero()
    ensures ToMilliseconds(0, 0, 0) == 0
  {
  }

  lemma ToMillisecondsDaysAsHours(d: int)
    ensures ToMilliseconds(d, 0, 0) == ToMilliseconds(0, 24 * d, 0)
  {
  }

  /** A `timedelta` after normalisation: `0 <= seconds < 86400`, sign carried by `days`. */
  datatype Timedelta = Timedelta(days: int, seconds: int)

  function TimedeltaOf(totalSeconds: int): (t: Timedelta)
    ensures 0 <= t.seconds < 86400
    ensures t.days * 86400 + t.seconds == totalSeconds
  {
    Timedelta(totalSeconds / 86400, totalSeconds % 86400)
  }

  /** `str(t)` is `"H:MM:SS"` alone when `t.days == 0`; otherwise `"N day(s), H:MM:SS"`. */
  predicate RendersWithDays(t: Timedelta) {
    t.days != 0
  }

  /** The milliseconds `time_conversion` adds up from the days and the `H`, `MM`, `SS` fields of `str(t)`. */
  function SumFields(t: Timedelta): (ms: int)
    requires 0 <= t.seconds < 86400
    ensures ms == t.days * MillisPerDay + t.seconds * 1000 + OffsetMillis
  {
    var mm := t.seconds / 60;
    var ss := t.seconds % 60;
    var hh := mm / 60;
    var mm' := mm % 60;
    assert t.seconds == hh * 3600 + mm' * 60 + ss;
    (t.days * 24 * 60 * 60 * 1000) + ((hh + 2) * 60 * 60 * 1000) + (mm' * 60 * 1000) + (ss * 1000)
  }

  /** `time_conversion(date)`: epoch milliseconds plus two hours, or the exception it raises. */
  function TimeConversion(date: string): (r: PyResult<int>)
    ensures Parse(date).None? ==> r == Raised(BadDate)
    ensures Parse(date).Some? && IsEpochDay(Parse(date).value) ==> r == Raised(NotEnoughValues)
    ensures Parse(date).Some? && !IsEpochDay(Parse(date).value) ==>
              r == Returned(SecondsSinceEpoch(Parse(date).value) * 1000 + OffsetMillis)
  {
    match Parse(date)
    case None => Raised(BadDate)
    case Some(d) =>
      var delta := TimedeltaOf(SecondsSinceEpoch(d));
      SecondsSinceEpochSplit(d);
      DaysSinceEpochZero(d);
      if !RendersWithDays(delta) then Raised(NotEnoughValues)
      else Returned(SumFields(delta))
  }

  /** A later date converts to a strictly larger number, and only a later one does. */
  lemma TimeConversionStrictlyIncreasing(a: string, b: string)
    requires TimeConversion(a).Returned? && TimeConversion(b).Returned?
    ensures Parse(a).Some? && Parse(b).Some?
    ensures TimeConversion(a).value < TimeConversion(b).value <==> Before(Parse(a).value, Parse(b).value)
  {
    SecondsSinceEpochOrder(Parse(a).value, Parse(b).value);
  }

  /** The conversion of a date is its formatted text's conversion: the offset is the same for every date. */
  lemma TimeConversionOfFormat(d: DateTime)
    requires Valid(d) && !IsEpochDay(d)
    ensures TimeConversion(Format(d)) == Returned(SecondsSinceEpoch(d) * 1000 + OffsetMillis)
  {
    ParseFormat(d);
  }

  /** The conversion of a text is decided by the date it parses to. */
  lemma TimeConversionOfParsed(date: string, d: DateTime)
    requires Parse(date) == Some(d) && !IsEpochDay(d)
    ensures TimeConversion(date) == Returned(SecondsSinceEpoch(d) * 1000 + OffsetMillis)
  {
  }

  lemma EpochDayNumber()
    ensures DayNumber(Epoch) == 719162
  {
    assert DaysBeforeYear(1970) == 719162;
  }

  lemma DigitPair(a: char, b: char)
    requires IsDigit(a) && IsDigit(b)
    ensures AllDigits([a, b]) && Value2([a, b]) == 10 * DigitValue(a) + DigitValue(b)
  {
  }

  /** A zero-padded date text is decided by its characters: the layout and the fields `Parse` reads, spelled out. */
  lemma LayoutOfChars(s: string)
    requires |s| == 19
    requires s[2] == '/' && s[5] == '/' && s[10] == ' ' && s[13] == ':' && s[16] == ':'
    requires IsDigit(s[0]) && IsDigit(s[1]) && IsDigit(s[3]) && IsDigit(s[4])
    requires IsDigit(s[6]) && IsDigit(s[7]) && IsDigit(s[8]) && IsDigit(s[9])
    requires IsDigit(s[11]) && IsDigit(s[12]) && IsDigit(s[14]) && IsDigit(s[15])
    requires IsDigit(s[17]) && IsDigit(s[18])
    ensures HasLayout(s)
    ensures Value2(s[0..2]) == 10 * DigitValue(s[0]) + DigitValue(s[1])
    ensures Value2(s[3..5]) == 10 * DigitValue(s[3]) + DigitValue(s[4])
    ensures Value4(s[6..10]) == 1000 * DigitValue(s[6]) + 100 * DigitValue(s[7]) + 10 * DigitValue(s[8]) + DigitValue(s[9])
    ensures Value2(s[11..13]) == 10 * DigitValue(s[11]) + DigitValue(s[12])
    ensures Value2(s[14..16]) == 10 * DigitValue(s[14]) + DigitValue(s[15])
    ensures Value2(s[17..19]) == 10 * DigitValue(s[17]) + DigitValue(s[18])
  {
    assert s[0..2] == [s[0], s[1]];
    assert s[3..5] == [s[3], s[4]];
    assert s[6..10] == [s[6], s[7], s[8], s[9]];
    assert s[6..10][..2] == [s[6], s[7]] && s[6..10][2..] == [s[8], s[9]];
    assert s[11..13] == [s[11], s[12]];
    assert s[14..16] == [s[14], s[15]];
    assert s[17..19] == [s[17], s[18]];
    DigitPair(s[0], s[1]);
    DigitPair(s[3], s[4]);
    DigitPair(s[6], s[7]);
    DigitPair(s[8], s[9]);
    DigitPair(s[11], s[12]);
    DigitPair(s[14], s[15]);
    DigitPair(s[17], s[18]);
  }

  lemma ParseDayAfterEpoch()
    ensures Parse("01/02/1970 00:00:00") == Some(DateTime(1970, 1, 2, 0, 0, 0))
  {
    var s := "01/02/1970 00:00:00";
    LayoutOfChars(s);
  }

  lemma DaysDayAfterEpoch()
    ensures DaysSinceEpoch(DateTime(1970, 1, 2, 0, 0, 0)) == 1
  {
    EpochDayNumber();
  }

  lemma SecondsDayAfterEpoch()
    ensures SecondsSinceEpoch(DateTime(1970, 1, 2, 0, 0, 0)) == 86400
  {
    DaysDayAfterEpoch();
    assert SecondOfDay(DateTime(1970, 1, 2, 0, 0, 0)) == 0;
  }

  /** One day after the epoch is 24 h of milliseconds plus the two-hour offset. */
  lemma TimeConversionDayAfterEpoch()
    ensures TimeConversion("01/02/1970 00:00:00") == Returned(MillisPerDay + OffsetMillis)
  {
    ParseDayAfterEpoch();
    SecondsDayAfterEpoch();
    TimeConversionOfParsed("01/02/1970 00:00:00", DateTime(1970, 1, 2, 0, 0, 0));
  }

  lemma ParseEpochNoon()
    ensures Parse("01/01/1970 12:00:00") == Some(DateTime(1970, 1, 1, 12, 0, 0))
  {
    var s := "01/01/1970 12:00:00";
    LayoutOfChars(s);
  }

  /** Any time on 1970-01-01 makes `temp.split(", ")` yield a single part, so the unpacking raises. */
  lemma TimeConversionRejectsEpochDay()
    ensures TimeConversion("01/01/1970 12:00:00") == Raised(NotEnoughValues)
  {
    ParseEpochNoon();
  }

  lemma ParseBeforeEpoch()
    ensures Parse("12/31/1969 22:00:00") == Some(DateTime(1969, 12, 31, 22, 0, 0))
  {
    var s := "12/31/1969 22:00:00";
    LayoutOfChars(s);
  }

  lemma DaysBeforeEpoch()
    ensures DaysSinceEpoch(DateTime(1969, 12, 31, 22, 0, 0)) == -1
  {
    EpochDayNumber();
    assert DaysBeforeYear(1969) == 718797;
    assert DaysBeforeMonth(1969, 12) == 334;
  }

  lemma SecondsBeforeEpoch()
    ensures SecondsSinceEpoch(DateTime(1969, 12, 31, 22, 0, 0)) == -7200
  {
    DaysBeforeEpoch();
    assert SecondOfDay(DateTime(1969, 12, 31, 22, 0, 0)) == 79200;
  }

  /** A date before the epoch renders as `"-1 day, 22:00:00"` and converts; two hours before the epoch lands on 0. */
  lemma TimeConversionBeforeEpoch()
    ensures TimeConversion("12/31/1969 22:00:00") == Returned(0)
  {
    ParseBeforeEpoch();
    SecondsBeforeEpoch();
    TimeConversionOfParsed("12/31/1969 22:00:00", DateTime(1969, 12, 31, 22, 0, 0));
  }
}
